=== FILE: README.md ===
# bbgo environment core, modelled in Dafny

This project models the orchestration core of bbgo's `Environment`
(`pkg/bbgo/environment.go`). The model covers:

- the session registry: `Session`, `Sessions`, `SelectSessions` and `AddExchangeSession`;
- the sync coordinator: `Sync`, `SyncSession`, `syncSession`, `getSessionSymbols`, `setSyncing` and `IsSyncing`;
- the session lifecycle loops `Init` and `Connect`;
- the routing and dispatch decisions of `ConfigureNotificationRouting`;
- the smaller setup rules: `ConfigureDatabase`, `RegisterStrategy`, `NewExchangeSessionFromConfig`, and the telegram pairing branch of `ConfigureNotificationSystem`.

Each operation is a pure function. Its collaborators are passed in as
parameters:

- a session's `Init`, its stream's `Connect`, and `FindPossibleSymbols`;
- `SyncService.SyncSessionSymbols`;
- the pattern channel routers, as functions from a key to an optional channel;
- the exchange constructors, the OTP key generator, and the store's `Load`/`Save`.

A Go `error` result is an `Option<Error>`, where `None` stands for `nil`.

Go keeps the sessions in a map, which has no fixed iteration order. The model
stores them as a sequence of `(name, session)` entries. The sequence order
stands for one iteration order. Every property is proved for every sequence,
so it holds for every order. `DistinctNames` states that the sequence is the
contents of a map.

Each loop records what it did, in order. `Init` records which sessions it
initialised. `Connect` records its subscribe and connect calls. `Sync` records
its status writes and its calls into the sync service. The fail-fast loop
shape is defined once, in `FailFast.Run`. It is proved against an independent
description: `FirstFailure` gives the index of the first failing session, and
`Effects` gives the effects of visiting a prefix of the sessions.

Files: `base.dfy` (errors and options), `failfast.dfy`, `sessions.dfy`,
`sync.dfy`, `lifecycle.dfy`, `routing.dfy`, `setup.dfy`.

Two points where the code differs from what a reader might expect:

- The comment at `pkg/bbgo/environment.go:283` says already-initialised sessions are skipped. The code does not always skip them (see Findings).
- `SubmitOrder` has no `$session` case (`pkg/bbgo/environment.go:440-456`). Under `$symbol` it only registers an object matcher.

## Model

| member | source | states |
|---|---|---|
| `Sessions.NewEnvironment` | pkg/bbgo/environment.go:88-100 | A new environment has no sessions, no notifiers, status `SyncNotStarted` and no sync service, and it keeps the given sync start checkpoint. |
| `Sessions.Session` | pkg/bbgo/environment.go:102-105 | The lookup finds a session exactly when the name is registered, and the session it returns is registered under that name. |
| `Sessions.FindEntry` | pkg/bbgo/environment.go:102-105 | With distinct names, looking up an entry's name returns that entry's session, so two different names never alias. |
| `Sessions.Sessions` | pkg/bbgo/environment.go:107-109 | The registry as a map: its keys are the registered names, and each key maps to what `Session` returns for it. |
| `Sessions.Collect` | pkg/bbgo/environment.go:116-123 | The name loop keeps exactly the listed names that are registered, each mapped to its registry session. |
| `Sessions.SelectSessions` | pkg/bbgo/environment.go:111-124 | With no names, the result is the whole registry. Otherwise it holds exactly the listed names that are registered, each with its session. Absent names are skipped. |
| `Sessions.Put` | pkg/bbgo/environment.go:180 | Insert-or-replace: the name now maps to the new session, every other name's lookup is unchanged, and the names gain just this one. |
| `Sessions.PutKeepsDistinct` | pkg/bbgo/environment.go:180 | Storing a session keeps names distinct. It adds an entry only when the name is new. |
| `Sessions.AddExchangeSession` | pkg/bbgo/environment.go:175-182 | Afterwards `Session(name)` returns the stored session, which has the environment's notifiers. Every other name's lookup is unchanged, and nothing else in the environment changes. |
| `Sessions.PutTwice` | pkg/bbgo/environment.go:180 | Storing twice under one name leaves the same registry as storing only the second session. |
| `Sessions.ReAddReplaces` | pkg/bbgo/environment.go:175-182 | Re-adding a name replaces the earlier session completely (last write wins). |
| `FailFast.Run` | pkg/bbgo/environment.go:537-543 | The fail-fast loop returns nil and visits everything when no visit fails. Otherwise it returns the first failing visit's error and performs the effects of exactly the visits up to that one. |
| `SyncCoordinator.SetSyncing` | pkg/bbgo/environment.go:512-523 | After a status write, `IsSyncing` reports the written status and nothing else changes. |
| `SyncCoordinator.IsSyncing` | pkg/bbgo/environment.go:512-517 | The status read is the stored one: writing it back leaves the environment unchanged. |
| `SyncCoordinator.SymbolScopePrecedence` | pkg/bbgo/environment.go:571-581 | An isolated-margin session yields exactly its symbol, whatever the caller symbols or the finder. Non-empty caller symbols are returned unchanged and the finder is not consulted. An error can only come from `FindPossibleSymbols`. |
| `SyncCoordinator.SessionSymbols` | pkg/bbgo/environment.go:571-581 | An isolated-margin session is pinned to its one symbol. Otherwise non-empty caller symbols are used. The finder's answer, including its error, is returned only when neither applies. |
| `SyncCoordinator.SyncStep` | pkg/bbgo/environment.go:560-569 | A symbol-scope error is returned and the sync service is not called. Otherwise the service is called exactly once, with the session's exchange, the checkpoint and the chosen symbols, and its answer is returned. |
| `SyncCoordinator.Sync` | pkg/bbgo/environment.go:525-544 | Without a sync service it returns nil and the environment is unchanged. Otherwise the status ends `SyncDone` on success and on error. It returns nil exactly when every session's sync succeeds. Otherwise it returns the first failing session's error, and only the sessions up to that one were synced. |
| `SyncCoordinator.SyncSession` | pkg/bbgo/environment.go:546-569 | Without a sync service it returns nil and changes nothing. Otherwise the status ends `SyncDone`. A symbol-scope error is returned without calling the sync service. Otherwise the service is called once, with the session's exchange, the checkpoint and the chosen symbols, and its error is returned. |
| `SyncCoordinator.SyncingDuringEveryCall` | pkg/bbgo/environment.go:531-543 | During a full sync, the status becomes `Syncing` before the first sync-service call and does not change until after the last call. It then becomes `SyncDone`. |
| `SyncCoordinator.IsolatedSessionSyncsItsSymbol` | pkg/bbgo/environment.go:546-581 | A session pinned to an isolated-margin symbol syncs exactly that one symbol, whatever caller symbols are passed. |
| `Lifecycle.Init` | pkg/bbgo/environment.go:278-291 | The intended `Init` returns nil exactly when every session's error is absent or "already initialized". Otherwise it returns the first other error, and no session after that one is initialised. |
| `Lifecycle.InitLoop` | pkg/bbgo/environment.go:280-290 | The loop as written matches the intended `Init` whenever some session fails. When no session fails, it returns the last visited session's init error. |
| `Lifecycle.InitAsWritten` | pkg/bbgo/environment.go:278-291 | `Init` as written agrees with the intended `Init` except that it returns the last session's tolerated error instead of nil. |
| `Lifecycle.InitAsWrittenRejectsReinitialisation` | pkg/bbgo/environment.go:282-290 | If the last visited session reports "already initialized" and no session fails otherwise, `Init` as written returns that error while the intended `Init` returns nil. |
| `Lifecycle.SubscribeAll` | pkg/bbgo/environment.go:497-500 | Issues one subscribe call per subscription, in order. |
| `Lifecycle.Connect` | pkg/bbgo/environment.go:486-510 | Returns nil exactly when every session with subscriptions connects. Otherwise it returns the first connect error, and no later session is touched. A session without subscriptions cannot make it fail. |
| `Lifecycle.UnsubscribedSessionUntouched` | pkg/bbgo/environment.go:492-495 | A registered session with zero subscriptions gets no subscribe call and no connect. |
| `Lifecycle.SubscriptionsPrecedeConnect` | pkg/bbgo/environment.go:496-506 | Every visited session with subscriptions contributes one contiguous block of calls: all its subscriptions, then its connect. |
| `NotificationRouting.ConfigureNotificationRouting` | pkg/bbgo/environment.go:330-473 | Without a routing section nothing changes. Otherwise handlers and matchers are only added. Every new handler is on a registered session, for trades or orders, and only under a `$session` or `$symbol` policy. |
| `NotificationRouting.RouteObjectByKind` | pkg/bbgo/environment.go:364-373 | The object router finds a channel only through a matcher of the event's own kind, and then uses the symbol router's channel for the event's symbol (exact type discrimination). |
| `NotificationRouting.FirePerSession` | pkg/bbgo/environment.go:349-361 | With distinct names, a policy installs exactly one handler of its kind per registered session. |
| `NotificationRouting.StreamEventDispatch` | pkg/bbgo/environment.go:341-438 | Under `$session`, a routed session sends every event to its channel and an unrouted one uses the default `Notify`. Under `$symbol`, an event goes to its symbol's channel, else to `Notify`. Under `$silent`, no handler is installed. |
| `NotificationRouting.ObjectRouteFollowsPolicy` | pkg/bbgo/environment.go:339-469 | For every event kind, the object router routes by symbol exactly when that kind's policy is `$symbol`. |
| `NotificationRouting.SymbolPolicyWithoutMatchers` | pkg/bbgo/environment.go:364-386 | If the object router holds no matcher, a Trade or Order event streamed under `$symbol` always goes to the default `Notify`, whatever channel its symbol routes to. |
| `Setup.ConfigureDatabase` | pkg/bbgo/environment.go:126-145 | Nothing is configured exactly when `DB_DRIVER` is set without `DB_DSN`, or when none of `DB_DRIVER`, `SQLITE3_DSN` and `MYSQL_URL` is set. Otherwise the driver and DSN come from one of the three sources. |
| `Setup.DatabasePrecedence` | pkg/bbgo/environment.go:128-142 | Once `DB_DRIVER` is set, the sqlite and mysql variables are ignored, even without `DB_DSN`. `SQLITE3_DSN` likewise hides `MYSQL_URL`. |
| `Setup.RegisterStrategy` | pkg/bbgo/environment.go:34-49 | The strategy is registered into each map whose interface it implements, and other keys are unchanged. A strategy implementing neither interface is refused and nothing is registered. |
| `Setup.CreateExchange` | pkg/bbgo/environment.go:219-235 | Without both a key and a secret, the exchange comes from the environment-variable constructor. Any error comes from one of the two constructors, so the empty-credential error is never produced. |
| `Setup.EmptyCredentialCheckIsDead` | pkg/bbgo/environment.go:221-231 | The empty key/secret check never fires: the constructor is chosen only by whether the key and secret are both non-empty. |
| `Setup.NewExchangeSessionFromConfig` | pkg/bbgo/environment.go:213-262 | The validator's error for an invalid exchange name, or the constructor's own error, is returned as is. A built exchange causes a refusal only when margin is configured and the exchange lacks margin support, so a margin session on a margin-capable exchange is built. A built session carries every configured field, and its exchange is switched to isolated or cross margin when margin is configured. |
| `Setup.IsolatedFlagWithoutMargin` | pkg/bbgo/environment.go:238-260 | With the isolated flag set but margin unset, the exchange's mode is not switched. The session still pins every sync to its isolated symbol. |
| `Setup.TelegramId` | pkg/bbgo/environment.go:607-608 | The bot ID is the longest prefix of the token that contains no colon. |
| `Setup.SetupNewOtpKey` | pkg/bbgo/environment.go:685-701 | Returns the generated key exactly when generation and the QR image write both succeed. A generation error is wrapped with the TOTP message, and an image error is returned unwrapped. |
| `Setup.TelegramPairing` | pkg/bbgo/environment.go:635-649 | A new key is set up exactly when `Load` fails or the session has no owner. A claimed session is reused as loaded. A new session has no owner and has been saved. A key-setup failure aborts with that error wrapped in the TOTP message. A save failure aborts with the store's error wrapped in the save message. |
| `Setup.PairingIdempotentOnceClaimed` | pkg/bbgo/environment.go:635-651 | Once the persisted session is claimed, every later setup reuses it, whatever the key generator or store would do. Until it is claimed, every run sets up a new key. |

## Findings

| source | as written | input that shows it | evidently intended | confidence | as-written member | corrected member |
|---|---|---|---|---|---|---|
| pkg/bbgo/environment.go:279-290 | `Init` has a named result `err`. Every iteration overwrites it, and the final bare `return` returns the last session's init error, even when that error is `ErrSessionAlreadyInitialized`. | Any registry whose last-iterated session returns `ErrSessionAlreadyInitialized`, e.g. a single session initialised twice. Go's map order is random, so with several sessions the result varies between runs. | Skip already-initialised sessions ("we can skip initialized sessions") and return nil when no other error occurs. | medium; not executed | `Lifecycle.InitAsWritten` | `Lifecycle.Init` |

## Left out

- Database connection, migration and service construction (`ConfigureDatabaseDriver`) are I/O against a database. `ConfigureDatabase` is modelled only as the choice of driver and DSN.
- `ConfigurePersistence` is left out: it is Redis and filesystem setup.
- Slack and telegram bot construction, log hooks, the `go interaction.Start` goroutine and the auth-token guide are network clients, a goroutine and console output. Only the pairing decision is kept.
- OTP key generation, QR-code PNG encoding, file writing and console printing are foreign libraries and I/O. They are parameters: the generated key result and the image-write result.
- `telegramnotifier.NewSession` is not part of this model. A new pairing session is taken to hold the key and no owner.
- `NewExchangeSession` is not part of this model. A session built from configuration is taken to start with no subscriptions and no notifiers.
- Sessions are values keyed by their registry name. Go stores `*ExchangeSession` pointers, so one session object can be registered under several names and share one stream. It would then get one handler per name and deliver each event more than once, and `AddExchangeSession` also writes the notifiers into the caller's object. Such aliasing is not modelled. `FirePerSession`'s one handler per session holds per registered name.
- `Sessions` and `SelectSessions`: in Go, `Sessions()` and `SelectSessions()` with no names return the registry map itself (lines 108 and 113). A caller's writes to that map change the registry, and later `AddExchangeSession` calls show up in a map returned earlier. The model returns a snapshot of the registry at the time of the call, so this sharing is not modelled.
- The mutexes (`syncMutex`, `syncStatusMutex`) are concurrency control. Calls are modelled one after another, and mutual exclusion itself is not modelled.
- The matching of `PatternChannelRouter` is not shown. The session and symbol routers are abstract functions, and the `AddRoute` calls that load the configured channel maps into them (lines 332-337) are not modelled.
- `RouteObject`: the object router is not part of this model. The file calls `ObjectChannelRouter.Route(func…)` at lines 366, 416, 446 and 461, and looks objects up with `environ.RouteObject` at lines 378 and 428. The model assumes each `Route(func…)` call registers its function as a matcher, and that lookup tries the matchers in registration order, with the first one that answers ok winning. `ConfigureNotificationRouting`, `StreamEventDispatch` and `ObjectRouteFollowsPolicy` rest on that assumption. Under the other reading, `Route` is itself the lookup: those calls register nothing, the matchers stay empty, and every `$symbol` Trade or Order event goes to `Notify`. `SymbolPolicyWithoutMatchers` states that outcome.
- `util.Render` templates are not shown. A delivery carries the event instead of its rendered text.
- `time.Now()` defaults are clock reads. The sync checkpoint is an opaque value passed through to `SyncSessionSymbols`.
- `Start` (the `InitSymbols` loop), `AddExchange`, `ConfigureExchangeSessions`, `AddExchangesByViperKeys` and `AddExchangesFromSessionConfig` are wiring that calls the modelled operations, and are not modelled.
- `SetStartTime` and `SetSyncStartTime` are plain setters.
- `ctx` cancellation is not modelled.

=== FILE: base.dfy ===
/**
 * Values shared by every part of the model: Go's `error` results, the
 * `(value, ok)` pairs of lookups, and functions that may fail.
 */
module Base {

  /** An optional value; `(v, true)` of a Go lookup is `Some(v)`, `(_, false)` is `None`. */
  datatype Option<+T> = None | Some(value: T)

  /**
   * The errors the environment produces or passes through. An `Option<Error>`
   * stands for a Go `error` result: `None` is `nil`.
   */
  datatype Error =
    | SessionAlreadyInitialized
      // `ErrSessionAlreadyInitialized`, the one error `Init` is meant to tolerate
    | MarginNotSupported(exchange: string)
      // "exchange %s does not support margin"
    | EmptyKeyOrSecret(exchange: string)
      // "can not create exchange %s: empty key or secret"
    | StrategyNotImplemented(key: string)
      // the panic of `RegisterStrategy`
    | Wrapped(message: string, cause: Error)
      // `errors.Wrap(cause, message)`
    | External(description: string)
      // an error produced by a collaborator outside the model

  /** A value or the error that prevented it: Go's `(T, error)` pair. */
  datatype Result<+T> = Ok(value: T) | Err(error: Error)
}

=== FILE: failfast.dfy ===
/**
 * The loop shape shared by `Init`, `Connect` and `Sync`: visit the sessions in
 * the order Go's `range` produced them, perform each visit's effects, and stop
 * at the first visit that returns an error, returning that error.
 *
 * `Run` is the loop; `FirstFailure` and `Effects` are the independent
 * description it is proved against.
 */
module FailFast {
  import opened Base

  /** What one visit did: the error it returned (None is nil) and its effects, in order. */
  datatype Step<E> = Step(error: Option<Error>, effects: seq<E>)

  /** The index of the first element whose visit fails, if any. */
  function FirstFailure<T, E>(xs: seq<T>, visit: T -> Step<E>): (k: Option<nat>)
    ensures k.None? <==> forall i :: 0 <= i < |xs| ==> visit(xs[i]).error.None?
    ensures k.Some? ==> k.value < |xs| && visit(xs[k.value]).error.Some?
    ensures k.Some? ==> forall i :: 0 <= i < k.value ==> visit(xs[i]).error.None?
    decreases |xs|
  {
    if |xs| == 0 then None
    else if visit(xs[0]).error.Some? then Some(0)
    else
      var rest := FirstFailure(xs[1..], visit);
      assert forall i :: 1 <= i < |xs| ==> xs[1..][i - 1] == xs[i];
      match rest
      case None => None
      case Some(j) => Some(j + 1)
  }

  /** The effects of visiting every element of `xs`, in order. */
  function Effects<T, E>(xs: seq<T>, visit: T -> Step<E>): seq<E>
    decreases |xs|
  {
    if |xs| == 0 then [] else visit(xs[0]).effects + Effects(xs[1..], visit)
  }

  /**
   * The fail-fast loop. When no visit fails, every element is visited and nil
   * is returned; otherwise exactly the elements up to and including the first
   * failing one are visited and that element's error is returned.
   */
  function Run<T, E>(xs: seq<T>, visit: T -> Step<E>): (r: Step<E>)
    ensures FirstFailure(xs, visit).None? ==>
              r.error.None? && r.effects == Effects(xs, visit)
    ensures FirstFailure(xs, visit).Some? ==>
              var k := FirstFailure(xs, visit).value;
              r.error == visit(xs[k]).error && r.effects == Effects(xs[..k + 1], visit)
    decreases |xs|
  {
    if |xs| == 0 then Step(None, [])
    else
      var head := visit(xs[0]);
      if head.error.Some? then
        assert xs[..1][1..] == [];
        head
      else
        var rest := Run(xs[1..], visit);
        match FirstFailure(xs[1..], visit)
        case None => Step(rest.error, head.effects + rest.effects)
        case Some(j) =>
          assert xs[..j + 2][1..] == xs[1..][..j + 1];
          Step(rest.error, head.effects + rest.effects)
  }

  /** A property every visit's effects have is had by all the effects of a pass. */
  lemma {:induction false} EffectsAll<T, E>(xs: seq<T>, visit: T -> Step<E>, p: E -> bool)
    requires forall i, j :: 0 <= i < |xs| && 0 <= j < |visit(xs[i]).effects| ==> p(visit(xs[i]).effects[j])
    ensures forall j :: 0 <= j < |Effects(xs, visit)| ==> p(Effects(xs, visit)[j])
    decreases |xs|
  {
    if |xs| > 0 {
      assert forall i :: 1 <= i < |xs| ==> xs[1..][i - 1] == xs[i];
      EffectsAll(xs[1..], visit, p);
      var head := visit(xs[0]).effects;
      var tail := Effects(xs[1..], visit);
      assert Effects(xs, visit) == head + tail;
      forall j | 0 <= j < |head + tail|
        ensures p((head + tail)[j])
      {
        if j < |head| {
          assert (head + tail)[j] == visit(xs[0]).effects[j];
        } else {
          assert (head + tail)[j] == tail[j - |head|];
        }
      }
    }
  }

  /** How many elements a fail-fast pass visits: all of them, or up to the first failure. */
  function Visited<T, E>(xs: seq<T>, visit: T -> Step<E>): (n: nat)
    ensures n <= |xs|
  {
    match FirstFailure(xs, visit)
    case None => |xs|
    case Some(k) => k + 1
  }

  /** A pass performs the effects of exactly the visited elements. */
  lemma RunEffects<T, E>(xs: seq<T>, visit: T -> Step<E>)
    ensures Run(xs, visit).effects == Effects(xs[..Visited(xs, visit)], visit)
  {
    assert xs[..|xs|] == xs;
  }

  /** The effects of a pass split around any one element. */
  lemma {:induction false} EffectsSplit<T, E>(xs: seq<T>, visit: T -> Step<E>, a: nat)
    requires a < |xs|
    ensures Effects(xs, visit) == Effects(xs[..a], visit) + visit(xs[a]).effects + Effects(xs[a + 1..], visit)
    decreases a
  {
    if a > 0 {
      EffectsSplit(xs[1..], visit, a - 1);
      assert xs[1..][..a - 1] == xs[..a][1..];
      assert xs[1..][a - 1] == xs[a];
      assert xs[1..][a..] == xs[a + 1..];
    } else {
      assert xs[..0] == [];
      assert xs[1..] == xs[a + 1..];
    }
  }

  /** The effects of a pass, split around any one visited element. */
  lemma RunSplit<T, E>(xs: seq<T>, visit: T -> Step<E>, a: nat)
    requires a < Visited(xs, visit)
    ensures var done := xs[..Visited(xs, visit)];
            Run(xs, visit).effects
            == Effects(done[..a], visit) + visit(xs[a]).effects + Effects(done[a + 1..], visit)
  {
    var done := xs[..Visited(xs, visit)];
    RunEffects(xs, visit);
    EffectsSplit(done, visit, a);
    assert done[a] == xs[a];
  }
}

=== FILE: lifecycle.dfy ===
/**
 * The session lifecycle loops of `Environment`: `Init`, which initialises
 * every session, and `Connect`, which subscribes and connects every session
 * stream.
 *
 * Each loop visits the registry in sequence order (one Go map iteration
 * order) and records, as its effects, the calls it made on the sessions.
 */
module Lifecycle {
  import opened Base
  import opened Sessions
  import opened FailFast

  /** `ExchangeSession.Init(ctx, environ)`, returning its error. */
  type SessionInit = ExchangeSession -> Option<Error>

  /** `session.Stream.Connect(ctx)`, returning its error. */
  type StreamConnect = ExchangeSession -> Option<Error>

  /** The registered names of `entries`, in order. */
  function Keys(entries: seq<Entry>): (r: seq<string>)
    ensures |r| == |entries| && forall i :: 0 <= i < |entries| ==> r[i] == entries[i].0
  {
    seq(|entries|, i requires 0 <= i < |entries| => entries[i].0)
  }

  // ---------------------------------------------------------------------------
  // Init
  // ---------------------------------------------------------------------------

  /** The init errors `Init` lets pass: none, or "already initialized". */
  predicate Tolerated(err: Option<Error>) {
    err.None? || err == Some(SessionAlreadyInitialized)
  }

  /** One iteration of `Init`: initialise the session; only an error that is not tolerated stops the loop. */
  function InitVisitor(init: SessionInit): Entry -> Step<string> {
    (e: Entry) => var err := init(e.1); Step(if Tolerated(err) then None else err, [e.0])
  }

  /** Every session visited by an `Init` pass is initialised once, in order. */
  lemma {:induction false} InitEffects(entries: seq<Entry>, init: SessionInit)
    ensures Effects(entries, InitVisitor(init)) == Keys(entries)
    decreases |entries|
  {
    if |entries| > 0 {
      InitEffects(entries[1..], init);
      assert Keys(entries) == [entries[0].0] + Keys(entries[1..]);
    }
  }

  /**
   * `Init`, as its comment intends: sessions that report they are already
   * initialised are skipped, and any other error is returned at once. It
   * returns nil exactly when every session's error is tolerated; otherwise
   * it returns the first intolerable error, after initialising the sessions
   * up to and including that one and no later one.
   */
  function Init(env: Environment, init: SessionInit): (r: Step<string>)
    ensures r.error.None? <==> forall i :: 0 <= i < |env.sessions| ==> Tolerated(init(env.sessions[i].1))
    ensures r.error.None? ==> r.effects == Keys(env.sessions)
    ensures r.error.Some? ==>
              r.error != Some(SessionAlreadyInitialized)
              && exists k :: 0 <= k < |env.sessions|
                   && (forall i :: 0 <= i < k ==> Tolerated(init(env.sessions[i].1)))
                   && r.error == init(env.sessions[k].1)
                   && r.effects == Keys(env.sessions[..k + 1])
  {
    var visit := InitVisitor(init);
    assert forall i :: 0 <= i < |env.sessions| ==>
      (visit(env.sessions[i]).error.None? <==> Tolerated(init(env.sessions[i].1)));
    var r := Run(env.sessions, visit);
    match FirstFailure(env.sessions, visit)
    case None =>
      InitEffects(env.sessions, init);
      r
    case Some(k) =>
      InitEffects(env.sessions[..k + 1], init);
      r
  }

  /**
   * The loop of `Init` as written. `err` is the function's named result, which
   * every iteration overwrites and the final bare `return` returns.
   */
  function InitLoop(entries: seq<Entry>, init: SessionInit, err: Option<Error>): (r: Step<string>)
    ensures FirstFailure(entries, InitVisitor(init)).Some? ==> r == Run(entries, InitVisitor(init))
    ensures FirstFailure(entries, InitVisitor(init)).None? ==>
              r.effects == Keys(entries)
              && r.error == if |entries| == 0 then err else init(entries[|entries| - 1].1)
    decreases |entries|
  {
    if |entries| == 0 then Step(err, [])
    else
      var e := init(entries[0].1);
      assert Keys(entries) == [entries[0].0] + Keys(entries[1..]);
      if !Tolerated(e) then Step(e, [entries[0].0])
      else
        var rest := InitLoop(entries[1..], init, e);
        Step(rest.error, [entries[0].0] + rest.effects)
  }

  /**
   * `Init` as written: identical to the intended `Init` whenever some session
   * fails, but when none does it returns the last visited session's init
   * error, which may be "already initialized".
   */
  function InitAsWritten(env: Environment, init: SessionInit): (r: Step<string>)
    ensures Init(env, init).error.Some? ==> r == Init(env, init)
    ensures Init(env, init).error.None? ==>
              r.effects == Init(env, init).effects
              && r.error == if |env.sessions| == 0 then None else init(env.sessions[|env.sessions| - 1].1)
  {
    InitLoop(env.sessions, init, None)
  }

  /**
   * The discrepancy: when the session visited last reports that it is already
   * initialised and no session failed otherwise, `Init` as written returns
   * `ErrSessionAlreadyInitialized` although the intended `Init` returns nil.
   */
  lemma InitAsWrittenRejectsReinitialisation(env: Environment, init: SessionInit)
    requires |env.sessions| > 0
    requires forall i :: 0 <= i < |env.sessions| ==> Tolerated(init(env.sessions[i].1))
    requires init(env.sessions[|env.sessions| - 1].1) == Some(SessionAlreadyInitialized)
    ensures InitAsWritten(env, init).error == Some(SessionAlreadyInitialized)
    ensures Init(env, init).error == None
  {
  }

  // ---------------------------------------------------------------------------
  // Connect
  // ---------------------------------------------------------------------------

  /** The calls `Connect` makes on a session stream. */
  datatype StreamEvent =
    | Subscribed(session: string, subscription: Subscription)
    | ConnectAttempted(session: string)

  /** `Stream.Subscribe` for each subscription of the session, in order. */
  function SubscribeAll(name: string, subscriptions: seq<Subscription>): (r: seq<StreamEvent>)
    ensures |r| == |subscriptions|
    ensures forall i :: 0 <= i < |subscriptions| ==> r[i] == Subscribed(name, subscriptions[i])
    decreases |subscriptions|
  {
    if |subscriptions| == 0 then []
    else [Subscribed(name, subscriptions[0])] + SubscribeAll(name, subscriptions[1..])
  }

  /**
   * One iteration of `Connect`: a session without subscriptions is skipped;
   * any other has every subscription issued and then its stream connected.
   */
  function ConnectStep(connect: StreamConnect, e: Entry): Step<StreamEvent> {
    if |e.1.subscriptions| == 0 then Step(None, [])
    else Step(connect(e.1), SubscribeAll(e.0, e.1.subscriptions) + [ConnectAttempted(e.0)])
  }

  function ConnectVisitor(connect: StreamConnect): Entry -> Step<StreamEvent> {
    (e: Entry) => ConnectStep(connect, e)
  }

  /** A session `Connect` actually connects: one with subscriptions. */
  predicate HasSubscriptions(s: ExchangeSession) {
    |s.subscriptions| > 0
  }

  /**
   * `Environment.Connect`: nil exactly when every session with subscriptions
   * connected; otherwise the first connect error, with no session after that
   * one touched. Sessions without subscriptions can never make it fail.
   */
  function Connect(env: Environment, connect: StreamConnect): (r: Step<StreamEvent>)
    ensures r.error.None? <==>
              forall i :: 0 <= i < |env.sessions| ==>
                !HasSubscriptions(env.sessions[i].1) || connect(env.sessions[i].1).None?
    ensures r.error.None? ==> r.effects == Effects(env.sessions, ConnectVisitor(connect))
    ensures r.error.Some? ==>
              exists k :: 0 <= k < |env.sessions|
                && HasSubscriptions(env.sessions[k].1)
                && (forall i :: 0 <= i < k ==>
                      !HasSubscriptions(env.sessions[i].1) || connect(env.sessions[i].1).None?)
                && r.error == connect(env.sessions[k].1)
                && r.effects == Effects(env.sessions[..k + 1], ConnectVisitor(connect))
  {
    var visit := ConnectVisitor(connect);
    assert forall i :: 0 <= i < |env.sessions| ==> visit(env.sessions[i]) == ConnectStep(connect, env.sessions[i]);
    Run(env.sessions, visit)
  }

  /** Every call a session's iteration makes is on that session's stream. */
  lemma ConnectStepOwnSession(connect: StreamConnect, e: Entry, j: nat)
    requires j < |ConnectStep(connect, e).effects|
    ensures ConnectStep(connect, e).effects[j].session == e.0
  {
    var subs := e.1.subscriptions;
    if j < |subs| {
      assert ConnectStep(connect, e).effects[j] == SubscribeAll(e.0, subs)[j];
    }
  }

  /**
   * A registered session without subscriptions gets neither a subscribe call
   * nor a connect: no call made by `Connect` is on its stream.
   */
  lemma UnsubscribedSessionUntouched(env: Environment, connect: StreamConnect, i: nat)
    requires DistinctNames(env.sessions) && i < |env.sessions|
    requires !HasSubscriptions(env.sessions[i].1)
    ensures forall j :: 0 <= j < |Connect(env, connect).effects| ==>
              Connect(env, connect).effects[j].session != env.sessions[i].0
  {
    var visit := ConnectVisitor(connect);
    var name := env.sessions[i].0;
    var p := (ev: StreamEvent) => ev.session != name;
    var n := Visited(env.sessions, visit);
    var xs := env.sessions[..n];
    RunEffects(env.sessions, visit);
    forall a, j | 0 <= a < |xs| && 0 <= j < |visit(xs[a]).effects|
      ensures p(visit(xs[a]).effects[j])
    {
      assert xs[a] == env.sessions[a];
      ConnectStepOwnSession(connect, xs[a], j);
      assert a != i;
      assert env.sessions[a].0 != name;
    }
    EffectsAll(xs, visit, p);
  }

  /** The calls of a `Connect` pass, split around the iteration of one visited session with subscriptions. */
  lemma ConnectEffectsAround(env: Environment, connect: StreamConnect, i: nat)
    requires i < Visited(env.sessions, ConnectVisitor(connect))
    requires HasSubscriptions(env.sessions[i].1)
    ensures var xs := env.sessions[..Visited(env.sessions, ConnectVisitor(connect))];
            var name := env.sessions[i].0;
            Connect(env, connect).effects
            == Effects(xs[..i], ConnectVisitor(connect))
               + SubscribeAll(name, env.sessions[i].1.subscriptions) + [ConnectAttempted(name)]
               + Effects(xs[i + 1..], ConnectVisitor(connect))
  {
    var visit := ConnectVisitor(connect);
    assert Connect(env, connect) == Run(env.sessions, visit);
    RunSplit(env.sessions, visit, i);
    assert visit(env.sessions[i]) == ConnectStep(connect, env.sessions[i]);
  }

  /**
   * Every session `Connect` visits that has subscriptions contributes one
   * contiguous block of calls: each of its subscriptions in order, then the
   * connect.
   */
  lemma SubscriptionsPrecedeConnect(env: Environment, connect: StreamConnect, i: nat)
    requires i < Visited(env.sessions, ConnectVisitor(connect))
    requires HasSubscriptions(env.sessions[i].1)
    ensures var name := env.sessions[i].0;
            exists before, after ::
              Connect(env, connect).effects
              == before + SubscribeAll(name, env.sessions[i].1.subscriptions) + [ConnectAttempted(name)] + after
  {
    var xs := env.sessions[..Visited(env.sessions, ConnectVisitor(connect))];
    ConnectEffectsAround(env, connect, i);
    var before := Effects(xs[..i], ConnectVisitor(connect));
    var after := Effects(xs[i + 1..], ConnectVisitor(connect));
    assert Connect(env, connect).effects
        == before + SubscribeAll(env.sessions[i].0, env.sessions[i].1.subscriptions)
           + [ConnectAttempted(env.sessions[i].0)] + after;
  }
}

=== FILE: routing.dfy ===
/**
 * The routing and dispatch decisions of `ConfigureNotificationRouting`.
 *
 * Configuration installs stream handlers on sessions and registers object
 * matchers; dispatch decides, for an event a session streams, where each
 * installed handler sends it. The pattern routers (`SessionChannelRouter`,
 * `SymbolChannelRouter`) are abstract functions from a key to an optional
 * channel; the text rendering of an event is left abstract, so a delivery
 * carries the event itself.
 */
module NotificationRouting {
  import opened Base
  import opened Sessions

  /** `PatternChannelRouter.Route(key)`: the channel the key routes to, if any. */
  type Router = string -> Option<Channel>

  datatype EventKind = Trade | Order | SubmitOrder | PnlReport

  datatype Event = Event(kind: EventKind, symbol: string, detail: string)

  /** `NotificationConfig.Routing`: one policy string per event kind. */
  datatype RoutingConfig = RoutingConfig(trade: string, order: string, submitOrder: string, pnl: string)

  const SilentPolicy := "$silent"
  const SessionPolicy := "$session"
  const SymbolPolicy := "$symbol"

  /** What an installed stream handler does with an event. */
  datatype Handler =
    | NotifyTo(channel: Channel)   // `environ.NotifyTo(channel, text, obj)` with a channel fixed at install time
    | NotifyDefault                // `environ.Notify(text, obj)`
    | NotifyByObjectRoute          // ask the object router at dispatch time, else `Notify`

  /** A handler added to one session's stream for one event kind (`OnTradeUpdate`, `OnOrderUpdate`). */
  datatype Installation = Installation(session: string, kind: EventKind, handler: Handler)

  /**
   * Everything configuration has set up: stream handlers in installation
   * order, and the object router's matchers in registration order, each
   * matcher standing for "an object of this kind, routed by its symbol".
   */
  datatype Wiring = Wiring(installs: seq<Installation>, matchers: seq<EventKind>)

  datatype Delivery = SentTo(channel: Channel, event: Event) | Broadcast(event: Event)

  function PolicyOf(conf: RoutingConfig, kind: EventKind): string {
    match kind
    case Trade => conf.trade
    case Order => conf.order
    case SubmitOrder => conf.submitOrder
    case PnlReport => conf.pnl
  }

  /** The kinds that sessions stream and handlers can be installed for. */
  predicate Streamed(kind: EventKind) {
    kind == Trade || kind == Order
  }

  /** The handler a policy installs on the session registered as `name`. */
  function HandlerFor(policy: string, sessionRouter: Router, name: string): Handler {
    if policy == SessionPolicy then
      match sessionRouter(name)
      case Some(c) => NotifyTo(c)
      case None => NotifyDefault
    else NotifyByObjectRoute
  }

  /** One installation per registered session, in registry order. */
  function PerSession(entries: seq<Entry>, kind: EventKind, policy: string, sessionRouter: Router): seq<Installation>
    decreases |entries|
  {
    if |entries| == 0 then []
    else [Installation(entries[0].0, kind, HandlerFor(policy, sessionRouter, entries[0].0))]
         + PerSession(entries[1..], kind, policy, sessionRouter)
  }

  /** The `switch` for a streamed kind: `$session` and `$symbol` install handlers, anything else none. */
  function StreamRouting(entries: seq<Entry>, kind: EventKind, policy: string, sessionRouter: Router): Wiring {
    if policy == SessionPolicy then Wiring(PerSession(entries, kind, policy, sessionRouter), [])
    else if policy == SymbolPolicy then Wiring(PerSession(entries, kind, policy, sessionRouter), [kind])
    else Wiring([], [])
  }

  /** The `switch` for an object-only kind: only `$symbol` does anything, registering a matcher. */
  function ObjectRouting(kind: EventKind, policy: string): seq<EventKind> {
    if policy == SymbolPolicy then [kind] else []
  }

  /** Every installation in `PerSession` is on a registered session, for the given kind. */
  lemma {:induction false} PerSessionShape(entries: seq<Entry>, kind: EventKind, policy: string, sessionRouter: Router)
    ensures forall j :: 0 <= j < |PerSession(entries, kind, policy, sessionRouter)| ==>
              PerSession(entries, kind, policy, sessionRouter)[j].kind == kind
              && PerSession(entries, kind, policy, sessionRouter)[j].session in Names(entries)
    decreases |entries|
  {
    if |entries| > 0 {
      PerSessionShape(entries[1..], kind, policy, sessionRouter);
      NamesCons(entries[0], entries[1..]);
      assert entries == [entries[0]] + entries[1..];
      var rest := PerSession(entries[1..], kind, policy, sessionRouter);
      var all := PerSession(entries, kind, policy, sessionRouter);
      forall j | 1 <= j < |all| ensures all[j] == rest[j - 1] { }
    }
  }

  /**
   * `ConfigureNotificationRouting`, given the wiring already in place. Without
   * a routing section nothing changes. Otherwise handlers and matchers are only
   * ever added, never removed; every new handler is on a registered session,
   * for a streamed kind whose policy is `$session` or `$symbol`.
   */
  function ConfigureNotificationRouting(env: Environment, routing: Option<RoutingConfig>,
                                        sessionRouter: Router, w: Wiring): (r: Wiring)
    ensures routing.None? ==> r == w
    ensures w.installs <= r.installs && w.matchers <= r.matchers
    ensures routing.Some? ==>
              forall j :: |w.installs| <= j < |r.installs| ==>
                Streamed(r.installs[j].kind)
                && r.installs[j].session in Names(env.sessions)
                && PolicyOf(routing.value, r.installs[j].kind) in {SessionPolicy, SymbolPolicy}
  {
    match routing
    case None => w
    case Some(conf) =>
      var trade := StreamRouting(env.sessions, Trade, conf.trade, sessionRouter);
      var order := StreamRouting(env.sessions, Order, conf.order, sessionRouter);
      PerSessionShape(env.sessions, Trade, conf.trade, sessionRouter);
      PerSessionShape(env.sessions, Order, conf.order, sessionRouter);
      var r := Wiring(w.installs + trade.installs + order.installs,
                      w.matchers + trade.matchers + order.matchers
                      + ObjectRouting(SubmitOrder, conf.submitOrder) + ObjectRouting(PnlReport, conf.pnl));
      assert forall j :: |w.installs| <= j < |w.installs| + |trade.installs| ==>
        r.installs[j] == trade.installs[j - |w.installs|];
      assert forall j :: |w.installs| + |trade.installs| <= j < |r.installs| ==>
        r.installs[j] == order.installs[j - |w.installs| - |trade.installs|];
      r
  }

  // ---------------------------------------------------------------------------
  // Dispatch
  // ---------------------------------------------------------------------------

  /**
   * `environ.RouteObject`: consult the matchers, taken to be the functions
   * handed to `ObjectChannelRouter.Route`, in registration order (the
   * router's own code is not part of this model). A matcher for the event's
   * kind answers with the symbol router's verdict; the first matcher that
   * answers with a channel wins.
   */
  function RouteObject(matchers: seq<EventKind>, symbolRouter: Router, ev: Event): Option<Channel>
    decreases |matchers|
  {
    if |matchers| == 0 then None
    else if matchers[0] == ev.kind && symbolRouter(ev.symbol).Some? then symbolRouter(ev.symbol)
    else RouteObject(matchers[1..], symbolRouter, ev)
  }

  /**
   * Type discrimination is exact: the object router finds a channel for an
   * event only through a matcher of the event's own kind, and then it is the
   * channel the symbol router gives the event's symbol.
   */
  lemma {:induction false} RouteObjectByKind(matchers: seq<EventKind>, symbolRouter: Router, ev: Event)
    ensures RouteObject(matchers, symbolRouter, ev) == if ev.kind in matchers then symbolRouter(ev.symbol) else None
    decreases |matchers|
  {
    if |matchers| > 0 {
      RouteObjectByKind(matchers[1..], symbolRouter, ev);
      assert matchers == [matchers[0]] + matchers[1..];
    }
  }

  /** What one handler does with one event. */
  function Deliver(h: Handler, ev: Event, matchers: seq<EventKind>, symbolRouter: Router): Delivery {
    match h
    case NotifyTo(c) => SentTo(c, ev)
    case NotifyDefault => Broadcast(ev)
    case NotifyByObjectRoute =>
      match RouteObject(matchers, symbolRouter, ev)
      case Some(c) => SentTo(c, ev)
      case None => Broadcast(ev)
  }

  /** Every handler installed on `session` for the event's kind fires, in installation order. */
  function Fire(installs: seq<Installation>, matchers: seq<EventKind>, session: string, ev: Event,
                symbolRouter: Router): seq<Delivery>
    decreases |installs|
  {
    if |installs| == 0 then []
    else
      (if installs[0].session == session && installs[0].kind == ev.kind
       then [Deliver(installs[0].handler, ev, matchers, symbolRouter)] else [])
      + Fire(installs[1..], matchers, session, ev, symbolRouter)
  }

  /** The deliveries an event streamed by the session registered as `session` causes. */
  function Deliveries(w: Wiring, session: string, ev: Event, symbolRouter: Router): seq<Delivery> {
    Fire(w.installs, w.matchers, session, ev, symbolRouter)
  }

  lemma {:induction false} FireAppend(a: seq<Installation>, b: seq<Installation>, matchers: seq<EventKind>,
                                      session: string, ev: Event, symbolRouter: Router)
    ensures Fire(a + b, matchers, session, ev, symbolRouter)
         == Fire(a, matchers, session, ev, symbolRouter) + Fire(b, matchers, session, ev, symbolRouter)
    decreases |a|
  {
    if |a| > 0 {
      FireAppend(a[1..], b, matchers, session, ev, symbolRouter);
      assert (a + b)[1..] == a[1..] + b;
    } else {
      assert a + b == b;
    }
  }

  /**
   * In a registry without duplicate names, exactly one handler of the given
   * kind is installed per registered session.
   */
  lemma {:induction false} FirePerSession(entries: seq<Entry>, kind: EventKind, policy: string, sessionRouter: Router,
                                          matchers: seq<EventKind>, session: string, ev: Event, symbolRouter: Router)
    requires DistinctNames(entries)
    ensures Fire(PerSession(entries, kind, policy, sessionRouter), matchers, session, ev, symbolRouter)
         == if ev.kind == kind && session in Names(entries)
            then [Deliver(HandlerFor(policy, sessionRouter, session), ev, matchers, symbolRouter)]
            else []
    decreases |entries|
  {
    if |entries| > 0 {
      assert DistinctNames(entries[1..]) by {
        assert forall a :: 1 <= a < |entries| ==> entries[1..][a - 1] == entries[a];
      }
      FirePerSession(entries[1..], kind, policy, sessionRouter, matchers, session, ev, symbolRouter);
      NamesCons(entries[0], entries[1..]);
      assert entries == [entries[0]] + entries[1..];
      assert entries[0].0 !in Names(entries[1..]) by {
        forall a | 0 <= a < |entries[1..]| ensures entries[1..][a].0 != entries[0].0 {
          assert entries[1..][a] == entries[a + 1];
        }
      }
    }
  }

  /**
   * From a fresh wiring, a streamed event fires exactly the one handler its
   * kind's policy installed on the streaming session, if the policy installs
   * any, whatever the object router's matchers.
   */
  lemma FreshFire(env: Environment, conf: RoutingConfig, sessionRouter: Router, matchers: seq<EventKind>,
                  name: string, ev: Event, symbolRouter: Router)
    requires DistinctNames(env.sessions) && name in Names(env.sessions)
    requires Streamed(ev.kind)
    ensures var w := ConfigureNotificationRouting(env, Some(conf), sessionRouter, Wiring([], []));
            var policy := PolicyOf(conf, ev.kind);
            Fire(w.installs, matchers, name, ev, symbolRouter)
            == if policy == SessionPolicy || policy == SymbolPolicy
               then [Deliver(HandlerFor(policy, sessionRouter, name), ev, matchers, symbolRouter)]
               else []
  {
    var w := ConfigureNotificationRouting(env, Some(conf), sessionRouter, Wiring([], []));
    var trade := StreamRouting(env.sessions, Trade, conf.trade, sessionRouter);
    var order := StreamRouting(env.sessions, Order, conf.order, sessionRouter);
    assert w.installs == trade.installs + order.installs by {
      assert w.installs == [] + trade.installs + order.installs;
    }
    FireAppend(trade.installs, order.installs, matchers, name, ev, symbolRouter);
    FirePerSession(env.sessions, Trade, conf.trade, sessionRouter, matchers, name, ev, symbolRouter);
    FirePerSession(env.sessions, Order, conf.order, sessionRouter, matchers, name, ev, symbolRouter);
  }

  /**
   * Dispatch of a streamed event under each policy, for a session of a registry
   * configured once from scratch:
   * under `$session`, a session whose name routes to a channel sends every
   * event there and an unrouted session uses the default `Notify`;
   * under `$symbol`, an event whose symbol routes to a channel goes there,
   * whichever session streamed it, and any other event to `Notify`;
   * under `$silent`, or any other policy, nothing is installed and the event
   * causes no notification.
   */
  lemma StreamEventDispatch(env: Environment, conf: RoutingConfig, sessionRouter: Router, symbolRouter: Router,
                            name: string, ev: Event)
    requires DistinctNames(env.sessions) && name in Names(env.sessions)
    requires Streamed(ev.kind)
    ensures var w := ConfigureNotificationRouting(env, Some(conf), sessionRouter, Wiring([], []));
            var ds := Deliveries(w, name, ev, symbolRouter);
            var policy := PolicyOf(conf, ev.kind);
            (policy == SessionPolicy ==>
               ds == [match sessionRouter(name) case Some(c) => SentTo(c, ev) case None => Broadcast(ev)])
            && (policy == SymbolPolicy ==>
               ds == [match symbolRouter(ev.symbol) case Some(c) => SentTo(c, ev) case None => Broadcast(ev)])
            && (policy != SessionPolicy && policy != SymbolPolicy ==> ds == [])
  {
    var w := ConfigureNotificationRouting(env, Some(conf), sessionRouter, Wiring([], []));
    FreshFire(env, conf, sessionRouter, w.matchers, name, ev, symbolRouter);
    if PolicyOf(conf, ev.kind) == SymbolPolicy {
      ObjectRouteFollowsPolicy(env, conf, sessionRouter, symbolRouter, ev);
    }
  }

  /**
   * The object router after configuring from scratch routes an event of any
   * kind by its symbol exactly when that kind's policy is `$symbol`, and
   * finds no channel for it otherwise.
   */
  lemma ObjectRouteFollowsPolicy(env: Environment, conf: RoutingConfig, sessionRouter: Router, symbolRouter: Router,
                                 ev: Event)
    ensures var w := ConfigureNotificationRouting(env, Some(conf), sessionRouter, Wiring([], []));
            RouteObject(w.matchers, symbolRouter, ev)
            == if PolicyOf(conf, ev.kind) == SymbolPolicy then symbolRouter(ev.symbol) else None
  {
    var w := ConfigureNotificationRouting(env, Some(conf), sessionRouter, Wiring([], []));
    RouteObjectByKind(w.matchers, symbolRouter, ev);
    var trade := StreamRouting(env.sessions, Trade, conf.trade, sessionRouter);
    var order := StreamRouting(env.sessions, Order, conf.order, sessionRouter);
    var submit := ObjectRouting(SubmitOrder, conf.submitOrder);
    var pnl := ObjectRouting(PnlReport, conf.pnl);
    assert w.matchers == [] + trade.matchers + order.matchers + submit + pnl;
    assert ev.kind in w.matchers <==>
      ev.kind in trade.matchers || ev.kind in order.matchers || ev.kind in submit || ev.kind in pnl;
  }
  /**
   * Dispatch under `$symbol` when the object router holds no matcher. If the
   * matcher registrations are not registrations at all, every Trade or Order
   * event streamed under `$symbol` falls back to the default `Notify`,
   * whatever channel its symbol routes to.
   */
  lemma SymbolPolicyWithoutMatchers(env: Environment, conf: RoutingConfig, sessionRouter: Router,
                                    symbolRouter: Router, name: string, ev: Event)
    requires DistinctNames(env.sessions) && name in Names(env.sessions)
    requires Streamed(ev.kind) && PolicyOf(conf, ev.kind) == SymbolPolicy
    ensures var w := ConfigureNotificationRouting(env, Some(conf), sessionRouter, Wiring([], []));
            Deliveries(w.(matchers := []), name, ev, symbolRouter) == [Broadcast(ev)]
  {
    FreshFire(env, conf, sessionRouter, [], name, ev, symbolRouter);
  }
}

=== FILE: sessions.dfy ===
/**
 * The environment's session registry (`Environment.sessions`) and the session
 * record it holds.
 *
 * Go keeps the registry in a `map[string]*ExchangeSession`, whose iteration
 * order is unspecified. Here it is a sequence of `(name, session)` entries; the
 * order of the sequence stands for one iteration order, and every property is
 * stated for every sequence, hence for every order.
 */
module Sessions {
  import opened Base

  type Channel = string

  /** The sync checkpoint (`syncStartTime`), an opaque instant. */
  type Checkpoint = int

  datatype SubscribeOptions = SubscribeOptions(interval: string, depth: string)

  datatype Subscription = Subscription(channel: string, symbol: string, options: SubscribeOptions)

  /** The margin mode an exchange client was switched to. */
  datatype MarginMode = Spot | CrossMargin | IsolatedMargin(symbol: string)

  /**
   * The exchange client a session owns. `supportsMargin` stands for the
   * client implementing `types.MarginExchange`.
   */
  datatype Exchange = Exchange(name: string, supportsMargin: bool, mode: MarginMode)

  /** The notifiers a session or the environment broadcasts to. */
  datatype Notifiability = Notifiability(notifiers: seq<string>)

  datatype ExchangeSession = ExchangeSession(
    name: string,
    exchangeName: string,
    envVarPrefix: string,
    key: string,
    secret: string,
    subAccount: string,
    publicOnly: bool,
    margin: bool,
    isolatedMargin: bool,
    isolatedMarginSymbol: string,
    subscriptions: seq<Subscription>,
    exchange: Exchange,
    notifiability: Notifiability)

  datatype SyncStatus = SyncNotStarted | Syncing | SyncDone

  /** One registry entry: the name the session is registered under, and the session. */
  type Entry = (string, ExchangeSession)

  /**
   * The parts of `Environment` the core reads and writes. `hasSyncService`
   * says whether `SyncService` is non-nil.
   */
  datatype Environment = Environment(
    sessions: seq<Entry>,
    notifiability: Notifiability,
    syncStartTime: Checkpoint,
    syncStatus: SyncStatus,
    hasSyncService: bool)

  /** No name is registered twice: the sequence is the contents of a Go map. */
  predicate DistinctNames(entries: seq<Entry>) {
    forall i, j :: 0 <= i < j < |entries| ==> entries[i].0 != entries[j].0
  }

  function Names(entries: seq<Entry>): set<string> {
    set i | 0 <= i < |entries| :: entries[i].0
  }

  lemma NamesCons(x: Entry, rest: seq<Entry>)
    ensures Names([x] + rest) == {x.0} + Names(rest)
  {
    var xs := [x] + rest;
    assert forall i :: 1 <= i < |xs| ==> xs[i] == rest[i - 1];
    forall n | n in Names(rest) ensures n in Names(xs) {
      var i :| 0 <= i < |rest| && rest[i].0 == n;
      assert xs[i + 1].0 == n;
    }
    assert xs[0].0 == x.0;
    forall n | n in Names(xs) ensures n == x.0 || n in Names(rest) {
      var i :| 0 <= i < |xs| && xs[i].0 == n;
      if i > 0 {
        assert rest[i - 1].0 == n;
      }
    }
  }

  /** The environment `NewEnvironment` builds: empty, not synced, no sync service yet. */
  function NewEnvironment(syncStartTime: Checkpoint): (env: Environment)
    ensures Names(env.sessions) == {} && DistinctNames(env.sessions)
    ensures env.syncStatus == SyncNotStarted && !env.hasSyncService
    ensures env.syncStartTime == syncStartTime && env.notifiability == Notifiability([])
  {
    Environment([], Notifiability([]), syncStartTime, SyncNotStarted, false)
  }

  /** Lookup of `name` among `entries`, the first entry registered under it. */
  function Find(entries: seq<Entry>, name: string): (r: Option<ExchangeSession>)
    ensures r.Some? <==> name in Names(entries)
    ensures r.Some? ==> (name, r.value) in entries
    decreases |entries|
  {
    if |entries| == 0 then None
    else if entries[0].0 == name then Some(entries[0].1)
    else
      assert Names(entries) == {entries[0].0} + Names(entries[1..]) by {
        assert forall i :: 1 <= i < |entries| ==> entries[1..][i - 1] == entries[i];
      }
      Find(entries[1..], name)
  }

  /** `Environment.Session`: the exact lookup of a session by its registered name. */
  function Session(env: Environment, name: string): (r: Option<ExchangeSession>)
    ensures r.Some? <==> name in Names(env.sessions)
    ensures r.Some? ==> (name, r.value) in env.sessions
  {
    Find(env.sessions, name)
  }

  /** In a registry without duplicates, the lookup finds the one entry with that name. */
  lemma FindEntry(entries: seq<Entry>, i: nat)
    requires DistinctNames(entries) && i < |entries|
    ensures Find(entries, entries[i].0) == Some(entries[i].1)
  {
  }

  /** `Environment.Sessions`: the registry as a Go map. */
  function Sessions(env: Environment): (m: map<string, ExchangeSession>)
    ensures m.Keys == Names(env.sessions)
    ensures forall n :: n in m ==> Session(env, n) == Some(m[n])
  {
    map n | n in Names(env.sessions) :: Find(env.sessions, n).value
  }

  /** Go's `m[name] = s`: replace the entry registered under `name`, or append one. */
  function Put(entries: seq<Entry>, name: string, s: ExchangeSession): (r: seq<Entry>)
    ensures Names(r) == Names(entries) + {name}
    ensures Find(r, name) == Some(s)
    ensures forall m :: m != name ==> Find(r, m) == Find(entries, m)
    decreases |entries|
  {
    if |entries| == 0 then
      assert [(name, s)][0].0 == name;
      [(name, s)]
    else
      NamesCons(entries[0], entries[1..]);
      assert entries == [entries[0]] + entries[1..];
      if entries[0].0 == name then
        NamesCons((name, s), entries[1..]);
        var r := [(name, s)] + entries[1..];
        assert r[1..] == entries[1..];
        r
      else
        var rest := Put(entries[1..], name, s);
        NamesCons(entries[0], rest);
        var r := [entries[0]] + rest;
        assert r[1..] == rest;
        r
  }

  /** Storing under a name keeps the names distinct, and adds an entry only for a new name. */
  lemma {:induction false} PutKeepsDistinct(entries: seq<Entry>, name: string, s: ExchangeSession)
    requires DistinctNames(entries)
    ensures DistinctNames(Put(entries, name, s))
    ensures |Put(entries, name, s)| == if name in Names(entries) then |entries| else |entries| + 1
    decreases |entries|
  {
    if |entries| > 0 {
      var r := Put(entries, name, s);
      NamesCons(entries[0], entries[1..]);
      assert entries == [entries[0]] + entries[1..];
      assert DistinctNames(entries[1..]) by {
        assert forall a :: 1 <= a < |entries| ==> entries[1..][a - 1] == entries[a];
      }
      assert entries[0].0 !in Names(entries[1..]) by {
        forall a | 0 <= a < |entries[1..]| ensures entries[1..][a].0 != entries[0].0 {
          assert entries[1..][a] == entries[a + 1];
        }
      }
      if entries[0].0 != name {
        PutKeepsDistinct(entries[1..], name, s);
        var rest := Put(entries[1..], name, s);
        assert r == [entries[0]] + rest;
        assert entries[0].0 !in Names(rest);
        forall a, b | 0 <= a < b < |r| ensures r[a].0 != r[b].0 {
          assert r[b] == rest[b - 1];
          if a > 0 {
            assert r[a] == rest[a - 1];
          } else {
            assert rest[b - 1].0 in Names(rest);
          }
        }
      } else {
        assert r == [(name, s)] + entries[1..];
        forall a, b | 0 <= a < b < |r| ensures r[a].0 != r[b].0 {
          assert r[b] == entries[b];
          if a > 0 {
            assert r[a] == entries[a];
          }
        }
      }
    }
  }

  /** Registering under a name twice keeps only the second session: last write wins. */
  lemma {:induction false} PutTwice(entries: seq<Entry>, name: string, first: ExchangeSession, second: ExchangeSession)
    ensures Put(Put(entries, name, first), name, second) == Put(entries, name, second)
    decreases |entries|
  {
    if |entries| > 0 && entries[0].0 != name {
      PutTwice(entries[1..], name, first, second);
      assert Put(entries, name, first)[1..] == Put(entries[1..], name, first);
    }
  }

  /**
   * `Environment.AddExchangeSession`: the session takes over the environment's
   * notifiers and is stored under `name`, replacing any session already there.
   * Returns the new environment and the stored session.
   */
  function AddExchangeSession(env: Environment, name: string, session: ExchangeSession): (r: (Environment, ExchangeSession))
    ensures Session(r.0, name) == Some(r.1)
    ensures r.1.notifiability == env.notifiability
    ensures r.1.(notifiability := session.notifiability) == session
    ensures forall m :: m != name ==> Session(r.0, m) == Session(env, m)
    ensures Names(r.0.sessions) == Names(env.sessions) + {name}
    ensures DistinctNames(env.sessions) ==> DistinctNames(r.0.sessions)
    ensures r.0.(sessions := env.sessions) == env
  {
    var stored := session.(notifiability := env.notifiability);
    var entries := Put(env.sessions, name, stored);
    assert DistinctNames(env.sessions) ==> DistinctNames(entries) by {
      if DistinctNames(env.sessions) {
        PutKeepsDistinct(env.sessions, name, stored);
      }
    }
    (env.(sessions := entries), stored)
  }

  /** Re-adding a name replaces the earlier session, leaving no trace of it. */
  lemma ReAddReplaces(env: Environment, name: string, first: ExchangeSession, second: ExchangeSession)
    ensures AddExchangeSession(AddExchangeSession(env, name, first).0, name, second).0
         == AddExchangeSession(env, name, second).0
  {
    var stored1 := first.(notifiability := env.notifiability);
    var stored2 := second.(notifiability := env.notifiability);
    PutTwice(env.sessions, name, stored1, stored2);
  }

  /** The loop of `SelectSessions` over a non-empty list of names. */
  function Collect(env: Environment, names: seq<string>): (m: map<string, ExchangeSession>)
    ensures m.Keys == set n | n in names && n in Names(env.sessions)
    ensures forall n :: n in m ==> Session(env, n) == Some(m[n])
    decreases |names|
  {
    if |names| == 0 then map[]
    else
      var init := names[..|names| - 1];
      var last := names[|names| - 1];
      assert names == init + [last];
      var m := Collect(env, init);
      match Session(env, last)
      case Some(s) => m[last := s]
      case None => m
  }

  /**
   * `Environment.SelectSessions`: with no names, the whole registry; otherwise
   * the listed names that are registered, each with its session; names that
   * are not registered are skipped without error.
   */
  function SelectSessions(env: Environment, names: seq<string>): (m: map<string, ExchangeSession>)
    ensures |names| == 0 ==> m == Sessions(env)
    ensures m.Keys == if |names| == 0 then Names(env.sessions)
                      else set n | n in names && n in Names(env.sessions)
    ensures forall n :: n in m ==> Session(env, n) == Some(m[n])
  {
    if |names| == 0 then Sessions(env) else Collect(env, names)
  }
}

=== FILE: setup.dfy ===
/**
 * The smaller setup decisions of the environment: which database to use,
 * strategy registration, building a session from its configuration, and the
 * telegram pairing decision of `ConfigureNotificationSystem`.
 *
 * Every collaborator (environment variables, exchange constructors, the OTP
 * key generator, the persistence store) is a parameter.
 */
module Setup {
  import opened Base
  import opened Sessions
  import SyncCoordinator

  // ---------------------------------------------------------------------------
  // ConfigureDatabase
  // ---------------------------------------------------------------------------

  /** The arguments `ConfigureDatabaseDriver` is called with. */
  datatype DatabaseTarget = DatabaseTarget(driver: string, dsn: string)

  /**
   * `ConfigureDatabase`'s choice over the process environment `vars` (a
   * variable that is set, even to "", is in the map). `None` means it returns
   * nil without configuring a database.
   */
  function ConfigureDatabase(vars: map<string, string>): (r: Option<DatabaseTarget>)
    ensures r.None? <==>
              ("DB_DRIVER" in vars && "DB_DSN" !in vars)
              || ("DB_DRIVER" !in vars && "SQLITE3_DSN" !in vars && "MYSQL_URL" !in vars)
    ensures r.Some? ==>
              || ("DB_DRIVER" in vars && "DB_DSN" in vars && r.value.dsn == vars["DB_DSN"] && r.value.driver == vars["DB_DRIVER"])
              || ("SQLITE3_DSN" in vars && r.value == DatabaseTarget("sqlite3", vars["SQLITE3_DSN"]))
              || ("MYSQL_URL" in vars && r.value == DatabaseTarget("mysql", vars["MYSQL_URL"]))
  {
    if "DB_DRIVER" in vars then
      if "DB_DSN" in vars then Some(DatabaseTarget(vars["DB_DRIVER"], vars["DB_DSN"])) else None
    else if "SQLITE3_DSN" in vars then Some(DatabaseTarget("sqlite3", vars["SQLITE3_DSN"]))
    else if "MYSQL_URL" in vars then Some(DatabaseTarget("mysql", vars["MYSQL_URL"]))
    else None
  }

  /**
   * The precedence of the variables: once `DB_DRIVER` is set, the sqlite and
   * mysql variables are never consulted, even when `DB_DSN` is missing; and
   * `SQLITE3_DSN` likewise hides `MYSQL_URL`.
   */
  lemma DatabasePrecedence(vars: map<string, string>)
    ensures "DB_DRIVER" in vars ==>
              ConfigureDatabase(vars) == ConfigureDatabase(vars - {"SQLITE3_DSN", "MYSQL_URL"})
    ensures "DB_DRIVER" in vars && "DB_DSN" !in vars ==> ConfigureDatabase(vars).None?
    ensures "DB_DRIVER" !in vars && "SQLITE3_DSN" in vars ==>
              ConfigureDatabase(vars) == ConfigureDatabase(vars - {"MYSQL_URL"})
  {
  }

  // ---------------------------------------------------------------------------
  // RegisterStrategy
  // ---------------------------------------------------------------------------

  /**
   * A strategy value; the two flags say which of the interfaces
   * `SingleExchangeStrategy` and `CrossExchangeStrategy` it implements.
   */
  datatype Strategy = Strategy(id: string, singleExchange: bool, crossExchange: bool)

  /** `LoadedExchangeStrategies` and `LoadedCrossExchangeStrategies`. */
  datatype StrategyRegistry = StrategyRegistry(single: map<string, Strategy>, cross: map<string, Strategy>)

  /**
   * `RegisterStrategy`: the strategy goes into each map whose interface it
   * implements, replacing any strategy under the same key; one implementing
   * neither is refused (the panic) and nothing is registered.
   */
  function RegisterStrategy(reg: StrategyRegistry, key: string, s: Strategy): (r: Result<StrategyRegistry>)
    ensures r.Ok? <==> s.singleExchange || s.crossExchange
    ensures r.Err? ==> r.error == StrategyNotImplemented(key)
    ensures r.Ok? && s.singleExchange ==> key in r.value.single && r.value.single[key] == s
    ensures r.Ok? && s.crossExchange ==> key in r.value.cross && r.value.cross[key] == s
    ensures r.Ok? && !s.singleExchange ==> r.value.single == reg.single
    ensures r.Ok? && !s.crossExchange ==> r.value.cross == reg.cross
    ensures r.Ok? ==> forall k :: k != key ==> (k in r.value.single <==> k in reg.single)
    ensures r.Ok? ==> forall k :: k != key && k in reg.single ==> r.value.single[k] == reg.single[k]
    ensures r.Ok? ==> forall k :: k != key ==> (k in r.value.cross <==> k in reg.cross)
    ensures r.Ok? ==> forall k :: k != key && k in reg.cross ==> r.value.cross[k] == reg.cross[k]
  {
    var single := if s.singleExchange then reg.single[key := s] else reg.single;
    var cross := if s.crossExchange then reg.cross[key := s] else reg.cross;
    if !s.singleExchange && !s.crossExchange then Err(StrategyNotImplemented(key))
    else Ok(StrategyRegistry(single, cross))
  }

  // ---------------------------------------------------------------------------
  // NewExchangeSessionFromConfig
  // ---------------------------------------------------------------------------

  /** The fields of a session configuration the constructor reads. */
  datatype SessionConfig = SessionConfig(
    exchangeName: string,
    envVarPrefix: string,
    key: string,
    secret: string,
    subAccount: string,
    publicOnly: bool,
    margin: bool,
    isolatedMargin: bool,
    isolatedMarginSymbol: string)

  /** `types.ValidExchangeName`. */
  type NameValidator = string -> Result<string>

  /** `cmdutil.NewExchangeStandard(name, key, secret, subAccount)`. */
  type StandardConstructor = (string, string, string, string) -> Result<Exchange>

  /** `cmdutil.NewExchangeWithEnvVarPrefix(name, prefix)`. */
  type EnvConstructor = (string, string) -> Result<Exchange>

  /**
   * The exchange client of a configured session, built from the configured
   * key and secret when both are given, else from environment variables. The
   * empty key/secret check inside the first branch is kept as written.
   */
  function CreateExchange(exchangeName: string, cfg: SessionConfig,
                          standard: StandardConstructor, fromEnv: EnvConstructor): (r: Result<Exchange>)
    ensures r.Err? ==> r == standard(exchangeName, cfg.key, cfg.secret, cfg.subAccount)
                        || r == fromEnv(exchangeName, cfg.envVarPrefix)
    ensures cfg.key == "" || cfg.secret == "" ==> r == fromEnv(exchangeName, cfg.envVarPrefix)
  {
    if cfg.key != "" && cfg.secret != "" then
      if !cfg.publicOnly && (|cfg.key| == 0 || |cfg.secret| == 0) then Err(EmptyKeyOrSecret(exchangeName))
      else standard(exchangeName, cfg.key, cfg.secret, cfg.subAccount)
    else fromEnv(exchangeName, cfg.envVarPrefix)
  }

  /**
   * The empty key/secret check can never fire: the branch it sits in already
   * requires a non-empty key and secret, so the choice of constructor is the
   * whole story.
   */
  lemma EmptyCredentialCheckIsDead(exchangeName: string, cfg: SessionConfig,
                                   standard: StandardConstructor, fromEnv: EnvConstructor)
    ensures CreateExchange(exchangeName, cfg, standard, fromEnv)
         == if cfg.key != "" && cfg.secret != "" then standard(exchangeName, cfg.key, cfg.secret, cfg.subAccount)
            else fromEnv(exchangeName, cfg.envVarPrefix)
  {
  }

  /** The session carries its name and every configured field, and has no subscriptions yet. */
  predicate CarriesConfig(s: ExchangeSession, name: string, cfg: SessionConfig) {
    && s.name == name
    && s.exchangeName == cfg.exchangeName
    && s.envVarPrefix == cfg.envVarPrefix
    && s.key == cfg.key
    && s.secret == cfg.secret
    && s.subAccount == cfg.subAccount
    && s.publicOnly == cfg.publicOnly
    && s.margin == cfg.margin
    && s.isolatedMargin == cfg.isolatedMargin
    && s.isolatedMarginSymbol == cfg.isolatedMarginSymbol
    && s.subscriptions == []
  }

  /** The margin mode the exchange client is switched to. */
  function ConfiguredMode(cfg: SessionConfig, default: MarginMode): MarginMode {
    if !cfg.margin then default
    else if cfg.isolatedMargin then IsolatedMargin(cfg.isolatedMarginSymbol)
    else CrossMargin
  }

  /**
   * `NewExchangeSessionFromConfig`. An invalid exchange name or a failing
   * constructor is returned as is. A margin session is refused unless its
   * exchange supports margin, and then the exchange is switched to isolated
   * margin on the configured symbol or to cross margin. A session that is
   * built carries every configured field.
   */
  function NewExchangeSessionFromConfig(name: string, cfg: SessionConfig, validate: NameValidator,
                                        standard: StandardConstructor, fromEnv: EnvConstructor)
    : (r: Result<ExchangeSession>)
    ensures validate(cfg.exchangeName).Err? ==> r == Err(validate(cfg.exchangeName).error)
    ensures validate(cfg.exchangeName).Ok?
            && CreateExchange(validate(cfg.exchangeName).value, cfg, standard, fromEnv).Err? ==>
              r == Err(CreateExchange(validate(cfg.exchangeName).value, cfg, standard, fromEnv).error)
    ensures r.Ok? ==> CarriesConfig(r.value, name, cfg)
    ensures r.Ok? ==>
              validate(cfg.exchangeName).Ok?
              && var built := CreateExchange(validate(cfg.exchangeName).value, cfg, standard, fromEnv);
                 built.Ok? && r.value.exchange == built.value.(mode := ConfiguredMode(cfg, built.value.mode))
    ensures r.Ok? && cfg.margin ==> r.value.exchange.supportsMargin
    ensures r.Err? && validate(cfg.exchangeName).Ok?
            && CreateExchange(validate(cfg.exchangeName).value, cfg, standard, fromEnv).Ok? ==>
              cfg.margin
              && !CreateExchange(validate(cfg.exchangeName).value, cfg, standard, fromEnv).value.supportsMargin
              && r.error == MarginNotSupported(validate(cfg.exchangeName).value)
  {
    match validate(cfg.exchangeName)
    case Err(e) => Err(e)
    case Ok(exchangeName) =>
      match CreateExchange(exchangeName, cfg, standard, fromEnv)
      case Err(e) => Err(e)
      case Ok(exchange) =>
        if cfg.margin && !exchange.supportsMargin then Err(MarginNotSupported(exchangeName))
        else
          Ok(ExchangeSession(name, cfg.exchangeName, cfg.envVarPrefix, cfg.key, cfg.secret, cfg.subAccount,
                             cfg.publicOnly, cfg.margin, cfg.isolatedMargin, cfg.isolatedMarginSymbol,
                             [], exchange.(mode := ConfiguredMode(cfg, exchange.mode)), Notifiability([])))
  }

  /**
   * A configuration that sets the isolated-margin flag without the margin flag
   * builds a session whose exchange is left in the mode its constructor chose,
   * yet the session still pins every sync to its isolated-margin symbol.
   */
  lemma IsolatedFlagWithoutMargin(name: string, cfg: SessionConfig, validate: NameValidator,
                                  standard: StandardConstructor, fromEnv: EnvConstructor,
                                  defaultSymbols: seq<string>, find: SyncCoordinator.SymbolFinder)
    requires cfg.isolatedMargin && !cfg.margin
    requires NewExchangeSessionFromConfig(name, cfg, validate, standard, fromEnv).Ok?
    ensures var s := NewExchangeSessionFromConfig(name, cfg, validate, standard, fromEnv).value;
            s.exchange == CreateExchange(validate(cfg.exchangeName).value, cfg, standard, fromEnv).value
            && SyncCoordinator.SessionSymbols(s, defaultSymbols, find) == Ok([cfg.isolatedMarginSymbol])
  {
  }

  // ---------------------------------------------------------------------------
  // Telegram pairing
  // ---------------------------------------------------------------------------

  /**
   * The bot ID part of a telegram bot token: `strings.Split(token, ":")[0]`,
   * the text before the first colon, or the whole token when there is none.
   */
  function TelegramId(token: string): (id: string)
    ensures id <= token
    ensures ':' !in id
    ensures |id| < |token| ==> token[|id|] == ':'
    decreases |token|
  {
    if |token| == 0 || token[0] == ':' then ""
    else [token[0]] + TelegramId(token[1..])
  }

  datatype OtpKey = OtpKey(secret: string)

  /** A persisted telegram session: its OTP key and the owner, nil until someone authenticates. */
  datatype PairingSession = PairingSession(key: OtpKey, owner: Option<string>)

  const SetupOtpKeyMessage := "failed to setup totp (time-based one time password) key"
  const SaveSessionMessage := "failed to save session"

  /**
   * `setupNewOTPKey`: generate a key, then write its QR code image. A
   * generation failure is wrapped; an image failure is returned as is.
   */
  function SetupNewOtpKey(generated: Result<OtpKey>, writeImage: OtpKey -> Option<Error>): (r: Result<OtpKey>)
    ensures r.Ok? <==> generated.Ok? && writeImage(generated.value).None?
    ensures r.Ok? ==> r.value == generated.value
    ensures generated.Err? ==> r == Err(Wrapped(SetupOtpKeyMessage, generated.error))
    ensures generated.Ok? && writeImage(generated.value).Some? ==> r == Err(writeImage(generated.value).value)
  {
    match generated
    case Err(e) => Err(Wrapped(SetupOtpKeyMessage, e))
    case Ok(key) =>
      match writeImage(key)
      case Some(e) => Err(e)
      case None => Ok(key)
  }

  /** The session handed to the interaction, and whether a new key was set up for it. */
  datatype Pairing = Pairing(session: PairingSession, newKey: bool)

  /** A new key is needed when no session could be loaded or nobody has claimed it. */
  predicate NeedsNewKey(loaded: Result<PairingSession>) {
    loaded.Err? || loaded.value.owner.None?
  }

  /**
   * The pairing branch of `ConfigureNotificationSystem`, given the store's
   * `Load` result. A claimed session is reused as loaded: no key is generated
   * and nothing is saved. Otherwise a new unclaimed session is set up with a
   * fresh key and saved; a failure on that path aborts with a wrapped error.
   */
  function TelegramPairing(loaded: Result<PairingSession>, generated: Result<OtpKey>,
                           writeImage: OtpKey -> Option<Error>, save: PairingSession -> Option<Error>)
    : (r: Result<Pairing>)
    ensures !NeedsNewKey(loaded) ==> r == Ok(Pairing(loaded.value, false))
    ensures r.Ok? ==> (r.value.newKey <==> NeedsNewKey(loaded))
    ensures r.Ok? && r.value.newKey ==>
              r.value.session.owner.None?
              && SetupNewOtpKey(generated, writeImage) == Ok(r.value.session.key)
              && save(r.value.session).None?
    ensures r.Err? ==>
              NeedsNewKey(loaded)
              && r.error.Wrapped?
              && (r.error.message == SetupOtpKeyMessage <==> SetupNewOtpKey(generated, writeImage).Err?)
              && (r.error.message == SaveSessionMessage <==> SetupNewOtpKey(generated, writeImage).Ok?)
              && (SetupNewOtpKey(generated, writeImage).Err? ==>
                    r.error == Wrapped(SetupOtpKeyMessage, SetupNewOtpKey(generated, writeImage).error))
              && (SetupNewOtpKey(generated, writeImage).Ok? ==>
                    save(PairingSession(SetupNewOtpKey(generated, writeImage).value, None)).Some?
                    && r.error == Wrapped(SaveSessionMessage,
                                          save(PairingSession(SetupNewOtpKey(generated, writeImage).value, None)).value))
  {
    if !NeedsNewKey(loaded) then Ok(Pairing(loaded.value, false))
    else
      match SetupNewOtpKey(generated, writeImage)
      case Err(e) => Err(Wrapped(SetupOtpKeyMessage, e))
      case Ok(key) =>
        var session := PairingSession(key, None);
        match save(session)
        case Some(e) => Err(Wrapped(SaveSessionMessage, e))
        case None => Ok(Pairing(session, true))
  }

  /**
   * Pairing is idempotent once claimed: feeding a run the session an earlier
   * run left, after it was claimed, reuses it whatever the key generator or
   * the store would do. Until it is claimed, every run sets up a new key.
   */
  lemma PairingIdempotentOnceClaimed(first: Pairing, owner: string,
                                     generated: Result<OtpKey>, writeImage: OtpKey -> Option<Error>,
                                     save: PairingSession -> Option<Error>)
    ensures var claimed := first.session.(owner := Some(owner));
            TelegramPairing(Ok(claimed), generated, writeImage, save) == Ok(Pairing(claimed, false))
    ensures var r := TelegramPairing(Ok(first.session.(owner := None)), generated, writeImage, save);
            r.Ok? ==> r.value.newKey
  {
  }
}

=== FILE: sync.dfy ===
/**
 * The sync coordinator: `Sync`, `SyncSession`, `syncSession`,
 * `getSessionSymbols`, `setSyncing` and `IsSyncing`.
 *
 * The two mutexes only serialise calls, so each call is modelled as one
 * sequential pass. The pass records what an observer would see, in order:
 * every change of the sync status and every call into the sync service.
 */
module SyncCoordinator {
  import opened Base
  import opened Sessions
  import opened FailFast

  /** `ExchangeSession.FindPossibleSymbols`, a collaborator that may fail. */
  type SymbolFinder = ExchangeSession -> Result<seq<string>>

  /** `SyncService.SyncSessionSymbols(exchange, since, symbols...)`, returning its error. */
  type SyncCapability = (Exchange, Checkpoint, seq<string>) -> Option<Error>

  datatype SyncEvent =
    | StatusChanged(status: SyncStatus)
    | SymbolsSynced(session: string, exchange: Exchange, since: Checkpoint, symbols: seq<string>)

  /** The error a call returned, the environment after it, and what it did. */
  datatype SyncResult = SyncResult(error: Option<Error>, env: Environment, trace: seq<SyncEvent>)

  /** `IsSyncing`: the current status, the one value whose write would leave the environment as it is. */
  function IsSyncing(env: Environment): (status: SyncStatus)
    ensures env.(syncStatus := status) == env
  {
    env.syncStatus
  }

  /** `setSyncing`: a status write that changes nothing else. */
  function SetSyncing(env: Environment, status: SyncStatus): (r: Environment)
    ensures IsSyncing(r) == status
    ensures r.(syncStatus := env.syncStatus) == env
  {
    env.(syncStatus := status)
  }

  /**
   * `getSessionSymbols`: the symbols to sync for a session. An isolated-margin
   * session is pinned to its symbol; otherwise the caller's symbols are used
   * when there are any; otherwise whatever the session can find.
   */
  function SessionSymbols(session: ExchangeSession, defaultSymbols: seq<string>, find: SymbolFinder)
    : (r: Result<seq<string>>)
    ensures session.isolatedMargin ==> r == Ok([session.isolatedMarginSymbol])
    ensures !session.isolatedMargin && |defaultSymbols| > 0 ==> r == Ok(defaultSymbols)
    ensures r != find(session) ==> r.Ok? && (session.isolatedMargin || |defaultSymbols| > 0)
  {
    if session.isolatedMargin then Ok([session.isolatedMarginSymbol])
    else if |defaultSymbols| > 0 then Ok(defaultSymbols)
    else find(session)
  }

  /**
   * The precedence of `getSessionSymbols`, stated as what each answer does not
   * depend on: an isolated-margin session ignores the caller's symbols and the
   * finder; caller symbols make the finder irrelevant; and an error can only
   * come from the finder, when it is the one consulted.
   */
  lemma SymbolScopePrecedence(session: ExchangeSession, symbols: seq<string>, otherSymbols: seq<string>,
                              find: SymbolFinder, otherFind: SymbolFinder)
    ensures session.isolatedMargin ==>
              SessionSymbols(session, symbols, find) == SessionSymbols(session, otherSymbols, otherFind)
              == Ok([session.isolatedMarginSymbol])
    ensures !session.isolatedMargin && |symbols| > 0 ==>
              SessionSymbols(session, symbols, find) == SessionSymbols(session, symbols, otherFind) == Ok(symbols)
    ensures SessionSymbols(session, symbols, find).Err? ==>
              !session.isolatedMargin && |symbols| == 0 && SessionSymbols(session, symbols, find) == find(session)
  {
  }

  /**
   * `syncSession`: work out the symbols, then hand them to the sync service.
   * A failure to work out the symbols is returned without calling the service.
   */
  function SyncStep(session: ExchangeSession, defaultSymbols: seq<string>, since: Checkpoint,
                    find: SymbolFinder, service: SyncCapability): (r: Step<SyncEvent>)
    ensures |r.effects| <= 1
    ensures r.effects == [] <==> SessionSymbols(session, defaultSymbols, find).Err?
    ensures r.effects == [] ==> r.error == Some(SessionSymbols(session, defaultSymbols, find).error)
    ensures forall ev :: ev in r.effects ==>
              ev == SymbolsSynced(session.name, session.exchange, since, SessionSymbols(session, defaultSymbols, find).value)
              && r.error == service(session.exchange, since, ev.symbols)
  {
    match SessionSymbols(session, defaultSymbols, find)
    case Err(e) => Step(Some(e), [])
    case Ok(symbols) =>
      Step(service(session.exchange, since, symbols),
           [SymbolsSynced(session.name, session.exchange, since, symbols)])
  }

  /** The per-session visit of `Sync`, which passes no caller symbols. */
  function SyncVisitor(since: Checkpoint, find: SymbolFinder, service: SyncCapability): Entry -> Step<SyncEvent> {
    (e: Entry) => SyncStep(e.1, [], since, find, service)
  }

  /** Wraps one pass between the two status writes, as the deferred `setSyncing(SyncDone)` does on every exit. */
  function Bracket(env: Environment, pass: Step<SyncEvent>): SyncResult {
    var syncing := SetSyncing(env, Syncing);
    SyncResult(pass.error, SetSyncing(syncing, SyncDone),
               [StatusChanged(Syncing)] + pass.effects + [StatusChanged(SyncDone)])
  }

  /**
   * `Sync`: sync every registered session, fail-fast. Without a sync service
   * nothing happens. Otherwise the status is `Syncing` for the whole pass and
   * `SyncDone` afterwards, on success and on error alike; nil is returned
   * exactly when every session synced; otherwise the first failing session's
   * error is returned and no later session was synced.
   */
  function Sync(env: Environment, find: SymbolFinder, service: SyncCapability): (r: SyncResult)
    ensures !env.hasSyncService ==> r == SyncResult(None, env, [])
    ensures env.hasSyncService ==> IsSyncing(r.env) == SyncDone && r.env.(syncStatus := env.syncStatus) == env
    ensures env.hasSyncService ==>
              (r.error.None? <==>
                 forall i :: 0 <= i < |env.sessions| ==>
                   SyncStep(env.sessions[i].1, [], env.syncStartTime, find, service).error.None?)
    ensures env.hasSyncService && r.error.None? ==>
              r.trace == [StatusChanged(Syncing)]
                         + Effects(env.sessions, SyncVisitor(env.syncStartTime, find, service))
                         + [StatusChanged(SyncDone)]
    ensures env.hasSyncService && r.error.Some? ==>
              exists k :: 0 <= k < |env.sessions|
                && (forall i :: 0 <= i < k ==>
                      SyncStep(env.sessions[i].1, [], env.syncStartTime, find, service).error.None?)
                && r.error == SyncStep(env.sessions[k].1, [], env.syncStartTime, find, service).error
                && r.trace == [StatusChanged(Syncing)]
                              + Effects(env.sessions[..k + 1], SyncVisitor(env.syncStartTime, find, service))
                              + [StatusChanged(SyncDone)]
  {
    if !env.hasSyncService then SyncResult(None, env, [])
    else
      var visit := SyncVisitor(env.syncStartTime, find, service);
      assert forall i :: 0 <= i < |env.sessions| ==>
        visit(env.sessions[i]) == SyncStep(env.sessions[i].1, [], env.syncStartTime, find, service);
      Bracket(env, Run(env.sessions, visit))
  }

  /**
   * `SyncSession`: sync one session, with the same locking and status
   * discipline as `Sync`.
   */
  function SyncSession(env: Environment, session: ExchangeSession, defaultSymbols: seq<string>,
                       find: SymbolFinder, service: SyncCapability): (r: SyncResult)
    ensures !env.hasSyncService ==> r == SyncResult(None, env, [])
    ensures env.hasSyncService ==> IsSyncing(r.env) == SyncDone && r.env.(syncStatus := env.syncStatus) == env
    ensures env.hasSyncService && SessionSymbols(session, defaultSymbols, find).Err? ==>
              r.error == Some(SessionSymbols(session, defaultSymbols, find).error)
              && r.trace == [StatusChanged(Syncing), StatusChanged(SyncDone)]
    ensures env.hasSyncService && SessionSymbols(session, defaultSymbols, find).Ok? ==>
              var symbols := SessionSymbols(session, defaultSymbols, find).value;
              r.error == service(session.exchange, env.syncStartTime, symbols)
              && r.trace == [StatusChanged(Syncing),
                             SymbolsSynced(session.name, session.exchange, env.syncStartTime, symbols),
                             StatusChanged(SyncDone)]
  {
    if !env.hasSyncService then SyncResult(None, env, [])
    else Bracket(env, SyncStep(session, defaultSymbols, env.syncStartTime, find, service))
  }

  /**
   * The status seen during a full sync: it is set to `Syncing` before the first
   * call into the sync service, is not changed again until every call has
   * returned, and is then set to `SyncDone`.
   */
  lemma {:induction false} SyncingDuringEveryCall(env: Environment, find: SymbolFinder, service: SyncCapability)
    requires env.hasSyncService
    ensures var t := Sync(env, find, service).trace;
            |t| >= 2 && t[0] == StatusChanged(Syncing) && t[|t| - 1] == StatusChanged(SyncDone)
            && forall i :: 0 < i < |t| - 1 ==> t[i].SymbolsSynced?
  {
    var visit := SyncVisitor(env.syncStartTime, find, service);
    var r := Sync(env, find, service);
    var p := (ev: SyncEvent) => ev.SymbolsSynced?;
    var pass: seq<SyncEvent>;
    if r.error.None? {
      pass := Effects(env.sessions, visit);
      EffectsAll(env.sessions, visit, p);
    } else {
      var k :| 0 <= k < |env.sessions|
        && r.trace == [StatusChanged(Syncing)] + Effects(env.sessions[..k + 1], visit) + [StatusChanged(SyncDone)];
      pass := Effects(env.sessions[..k + 1], visit);
      EffectsAll(env.sessions[..k + 1], visit, p);
    }
    assert r.trace == [StatusChanged(Syncing)] + pass + [StatusChanged(SyncDone)];
    forall i | 0 < i < |r.trace| - 1 ensures r.trace[i].SymbolsSynced? {
      assert r.trace[i] == pass[i - 1];
      assert p(pass[i - 1]);
    }
  }

  /**
   * A session pinned to an isolated-margin symbol syncs exactly that symbol,
   * whatever symbols the caller passes, and the call returns the sync
   * service's answer.
   */
  lemma IsolatedSessionSyncsItsSymbol(env: Environment, session: ExchangeSession, defaultSymbols: seq<string>,
                                      find: SymbolFinder, service: SyncCapability)
    requires env.hasSyncService && session.isolatedMargin
    ensures var r := SyncSession(env, session, defaultSymbols, find, service);
            var symbols := [session.isolatedMarginSymbol];
            r.trace == [StatusChanged(Syncing),
                        SymbolsSynced(session.name, session.exchange, env.syncStartTime, symbols),
                        StatusChanged(SyncDone)]
            && r.error == service(session.exchange, env.syncStartTime, symbols)
  {
  }
}
